=== FILE: README.md ===
# Binary search tree (Ruby `Tree` / `Node`) in Dafny

This project models `lib/binary_search_tree.rb`: a binary search tree of
integer keys built balanced from an array, with recursive insert, find and
delete (two-children deletion copies the in-order successor's key), in-, pre-,
post- and level-order traversals (level order both as an iterative loop and as
a recursive queue walk), and `height` / `depth`.

Nodes are immutable values, `datatype Tree = Nil | Node(left, key, right)`,
where `Nil` is Ruby's `nil` child. The Ruby code mutates nodes in place and has
each caller reassign the child it recursed into; the model returns the rebuilt
subtree instead, which is the same pattern without aliasing. The Ruby `Tree`
object is `SearchTree(root)`. A `nil` subtree, whether a child or the result
of `build_tree` or `delete_node`, is `Nil`; `find`, the recursive traversals,
`height` and `depth` return an `Option`, with `None` for `nil`.

Files: `options.dfy` (`nil`), `sorted.dfy` (`arr.uniq.sort`), `nodes.dfy`
(the `Node` class and the BST invariant), `build.dfy`, `search.dfy`,
`deletion.dfy`, `levels.dfy` (breadth-first order defined level by level),
`traversal.dfy`, `measure.dfy` (height, depth) and `tree.dfy`
(the `Tree` object's root-level interface).

The model keeps these behaviours of the Ruby code, which a reader might not expect:

- `inorder`, `preorder` and `postorder` return `nil`, not `[]`, on an empty
  tree; `level_order` returns `[]`.
- `level_order_rec` with its default queue `[@root]` dereferences `nil` when
  the tree is empty, so it requires a non-empty tree.
- `depth` adds `nil` to a count and raises when the key is not on the search
  path, so reaching the key is its precondition; it returns `nil` only when
  the start node or the sought node is `nil`.
- `insert(value)` on an empty tree returns a new node but never stores it in
  `@root`; `TreeInsert` keeps that behaviour.
- `height` counts a missing child as 0 rather than -1. Because a present
  child's height is never negative, this still gives the edge count of the
  longest downward path.

## Model

| member | source | states |
|---|---|---|
| `Sorted.SortedUnique` | lib/binary_search_tree.rb:9 | `arr.uniq.sort` is strictly ascending, has exactly the elements of `arr`, and is no longer than `arr` |
| `Sorted.InsertUnique` | lib/binary_search_tree.rb:9 | adding one element to an ascending run keeps it ascending, adds exactly that element, and grows it by one only when the element is new |
| `Sorted.AscendingDeterminedByElements` | lib/binary_search_tree.rb:9 | two strictly ascending sequences with the same elements are equal, so `uniq.sort` has one possible result |
| `BinarySearchTree.New` | lib/binary_search_tree.rb:8-10 | `Tree.new(arr)` yields a size-balanced search tree whose keys are exactly the distinct elements of `arr`, whose in-order keys ascend, and whose root is `nil` exactly when `arr` is empty |
| `BinarySearchTree.NewInorderIsUniqSort` | lib/binary_search_tree.rb:8-10 | the in-order traversal of `Tree.new(arr)` equals any strictly ascending sequence of the distinct elements of `arr` |
| `Build.BuildTree` | lib/binary_search_tree.rb:13-22 | `build_tree` returns `nil` only for an empty slice, its in-order keys reproduce the input, its size is the input length, at every node the right subtree holds as many keys as the left or one more, and a strictly ascending input gives a search tree |
| `Build.BalancedHeight` | lib/binary_search_tree.rb:13-22 | a size-balanced tree of n nodes, which `build_tree` always returns, has 2^height <= n, the least height n keys allow |
| `Search.Insert` | lib/binary_search_tree.rb:25-36 | `insert` always returns a node; the key set becomes the old one plus `v`; every existing node keeps its path and key; the result is either the tree unchanged or the tree with exactly one more node, a leaf holding `v` where there was no node (no rebalancing); a `nil` subtree becomes one leaf; on a search tree the result is a search tree, an already present key leaves the tree unchanged, and the node count rises by one exactly when `v` was absent |
| `BinarySearchTree.TreeInsert` | lib/binary_search_tree.rb:25-36 | `insert(value)` returns `Insert(v, @root)`, so all of `Search.Insert`'s guarantees apply; an empty tree stays empty though a new leaf is returned; otherwise the root is the returned subtree with `v` added; the search-tree property is kept, and on a search tree an already present key leaves the tree and the returned node unchanged |
| `Search.Find` | lib/binary_search_tree.rb:60-68 | `find` returns only a node holding `v`, only if `v` is a key, and always one of the tree's own subtrees (reached by some downward path); on a search tree it finds a node exactly when `v` is a key |
| `Deletion.DeleteNode` | lib/binary_search_tree.rb:170-193 | `delete_node` keeps `nil` as `nil`, leaves the tree unchanged when `v` is absent, and never adds keys. When the node it is called on holds `v`, it splices in the right child if there is no left child and the left child if there is no right child; with two children it keeps the left subtree, takes the right subtree's lowest key and deletes that key from the right subtree. Every subtree that does not hold `v` and does not hang below the node holding `v` stays unchanged at its path. On a search tree the result is a search tree holding exactly the old keys minus `v`, with one node fewer exactly when `v` was present |
| `Deletion.DeleteAtMatch` | lib/binary_search_tree.rb:170-193 | in a search tree, wherever the node holding `v` sits, the subtree at its path becomes `delete_node` applied to that node alone (the splice or successor copy above), and every node above it on the path is still a node with its old key |
| `Deletion.SuccessorIsNextKey` | lib/binary_search_tree.rb:185-190 | the key copied into a node with two children is the smallest key of its subtree greater than the node's key, lies above every key of the left subtree, and below every key left in the right subtree after its own deletion there |
| `BinarySearchTree.Delete` | lib/binary_search_tree.rb:40-42 | `delete` replaces the root by the result of `delete_node`, so all of `Deletion.DeleteNode`'s guarantees apply at the root; deleting the root's key removes it from the tree, and an absent key leaves the tree as it was |
| `Nodes.LowestChild` | lib/binary_search_tree.rb:221-225 | `lowest_child_recur` returns the node of the subtree reached by left steps only that has no left child (the subtree itself when it has none), holding one of the subtree's keys, and in a search tree the subtree's minimum key |
| `Nodes.NumChildren` | lib/binary_search_tree.rb:212-217 | `num_children` is at most 2, is 0 exactly for a leaf and 2 exactly when both children are present |
| `Nodes.Compare` | lib/binary_search_tree.rb:208-210 | `<=>` on nodes is the three-way comparison of their keys |
| `Nodes.AtHoldsKey` | lib/binary_search_tree.rb:147-159 | any node reached by a downward path holds a key of the tree it started from |
| `Options.Values` | lib/binary_search_tree.rb:104-107 | when a child's traversal returned a list, exactly that list is spliced into the parent's result, as `flatten` does; the `unless ... nil?` guards keep a `nil` child out |
| `Traversal.Inorder` | lib/binary_search_tree.rb:100-108 | `inorder` is `nil` exactly for an empty tree, and otherwise lists every key of the tree once per node |
| `Traversal.InorderKeys` | lib/binary_search_tree.rb:100-108 | the in-order keys of any tree are exactly its keys |
| `Traversal.InorderAscending` | lib/binary_search_tree.rb:100-108 | the in-order keys of a search tree are strictly ascending |
| `Traversal.Preorder` | lib/binary_search_tree.rb:111-119 | `preorder` is `nil` exactly for an empty tree, and otherwise is a permutation of the tree's keys, hence of the in-order keys |
| `Traversal.Postorder` | lib/binary_search_tree.rb:122-130 | `postorder` is `nil` exactly for an empty tree, and otherwise is a permutation of the tree's keys, hence of the in-order keys |
| `Traversal.Children` | lib/binary_search_tree.rb:92-93 | the visited node's children are appended to the queue left first, one entry per present child and none for a `nil` one |
| `Traversal.ChildrenKeys` | lib/binary_search_tree.rb:92-93 | the appended children hold every node and key of the visited node's subtree except the node itself, so the walk neither loses nor repeats a key |
| `Traversal.LevelOrderQueue` | lib/binary_search_tree.rb:85-97 | `level_order_rec(queue)` terminates and lists, as a permutation, every key of every subtree in the queue |
| `Traversal.LevelOrderRec` | lib/binary_search_tree.rb:84-97 | `level_order_rec` on a non-empty tree is breadth-first: the keys at depth 0, then at depth 1, and so on down to the height, each depth left to right; it is a permutation of the tree's keys |
| `Traversal.BreadthFirst` | lib/binary_search_tree.rb:84-97 | the queue walk started from `[@root]` lists the tree's keys level by level, shallower levels first and left to right within a level |
| `Levels.LevelKeysAtDepth` | lib/binary_search_tree.rb:84-97 | the keys listed for depth `d` are exactly the keys of nodes reached by a downward path of `d` steps |
| `Levels.LevelKeysBeyondHeight` | lib/binary_search_tree.rb:133-145 | no node lies deeper than the height, so the level-by-level listing stops at the height |
| `Traversal.LevelOrder` | lib/binary_search_tree.rb:70-82 | the iterative `level_order` returns `[]` for an empty tree, otherwise exactly the sequence `level_order_rec` returns, which is the keys by depth and left to right within a depth, and always a permutation of the tree's keys |
| `Measure.Height` | lib/binary_search_tree.rb:133-145 | `height` is `nil` exactly for a `nil` node |
| `Measure.HeightIsLongestPath` | lib/binary_search_tree.rb:133-145 | the height of a node bounds every downward path that stays on nodes, and some path of exactly that length ends at a leaf |
| `Measure.SizeBelowPow2` | lib/binary_search_tree.rb:133-145 | a tree of height h has fewer than 2^(h+1) nodes |
| `Measure.Depth` | lib/binary_search_tree.rb:147-159 | `depth` is `nil` exactly when the start node or the sought node is `nil`, and requires the sought key to lie on the comparison path |
| `Measure.DepthLocatesKey` | lib/binary_search_tree.rb:147-159 | `depth` is the length of a downward path from the start node to the very node `find` returns, and in a search tree every path reaching that key has this length |

## Left out

- `pretty_print` and `Node#to_s`: console output and string formatting only.
- The block (visitor) forms of the traversals and the private `traverse`
  helper that calls the block: with a block the traversals return `nil`, so
  only the collected-sequence form is modelled.
- `balanced?` and `rebalance`: called by the demo drivers but not defined in
  the library, so there is no behaviour to model.
- The demo drivers `main.rb`, `lib/test.rb` and `test.rb`: random input and
  `puts`, with no assertions.
- Ruby's call-stack limit: `level_order_rec` recurses once per visited node,
  and `insert`, `find`, `delete_node`, `height`, `depth` and the depth-first
  traversals once per level, so on a large enough tree (or a long chain) Ruby
  raises `SystemStackError` where the model returns a value. In particular
  `LevelOrder == LevelOrderRec` is proved as values, for trees small enough
  that `level_order_rec` returns at all.
- Keys are `int`; Ruby's duck-typed `Comparable` keys and errors from
  incomparable keys are not modelled.
- Node identity and aliasing: nodes are values, so "the same node object" is
  modelled as an equal subtree; `Depth`'s sought node is compared by key, as
  `Node#<=>` does.
- `find(value)`, the traversals and `depth(node)` with their default argument
  `@root` are the same functions applied to `SearchTree.root`, so they have no
  separate members.
- Nodes.LowestChild: the minimum-key promise is stated for search trees only; on
  a tree that breaks the ordering the leftmost node need not hold the minimum.
- Options.Values: the contract states only the list case; the `nil` case, contributing nothing, is stated only by its one-line body.
- Search.Find: "found exactly when present" is stated for search trees only; on
  other trees the comparison descent can miss a key held off its path.
- Search.Insert: "present key leaves the tree unchanged" and the count change
  are stated for search trees only, for the same reason.

=== FILE: build.dfy ===
/** `Tree#build_tree`: a balanced tree from a sorted array, rooted at the
    element at index `(len - 1) / 2` of every slice. */
module Build {
  import opened Options
  import opened Sorted
  import opened Nodes
  import opened Traversal
  import opened Measure

  /** At every node the two subtrees hold equally many keys, or one more on the right. */
  predicate SizeBalanced(t: Tree)
  {
    match t
    case Nil => true
    case Node(l, _, r) =>
      SizeBalanced(l) && SizeBalanced(r) && Size(l) <= Size(r) <= Size(l) + 1
  }

  /** `build_tree(arr)`: `nil` for an empty slice; otherwise the middle element
      over the trees built from the two halves. */
  function BuildTree(a: seq<int>): (r: Tree)
    ensures r.Nil? <==> |a| == 0
    ensures Values(Inorder(r)) == a
    ensures Keys(r) == Elements(a)
    ensures Size(r) == |a|
    ensures SizeBalanced(r)
    ensures StrictlyAscending(a) ==> BST(r)
    decreases |a|
  {
    if |a| == 0 then Nil
    else
      var mid := (|a| - 1) / 2;
      var l := BuildTree(a[..mid]);
      var r := BuildTree(a[mid + 1..]);
      Split(a, mid, a[..mid], a[mid + 1..]);
      Node(l, a[mid], r)
  }

  /** Cutting an array around index `mid`, as `build_tree` does. */
  lemma {:induction false} Split(a: seq<int>, mid: nat, lo: seq<int>, hi: seq<int>)
    requires mid < |a| && lo == a[..mid] && hi == a[mid + 1..]
    ensures a == lo + [a[mid]] + hi
    ensures Elements(a) == Elements(lo) + {a[mid]} + Elements(hi)
    ensures StrictlyAscending(a) ==>
      && StrictlyAscending(lo) && StrictlyAscending(hi)
      && (forall x :: x in Elements(lo) ==> x < a[mid])
      && (forall x :: x in Elements(hi) ==> a[mid] < x)
  {
    assert a == lo + [a[mid]] + hi;
    ElementsConcat(lo, [a[mid]]);
    ElementsConcat(lo + [a[mid]], hi);
  }

  /** A size-balanced tree of n nodes, such as `build_tree` returns, has the
      least height n keys allow: 2^height <= n. */
  lemma {:induction false} BalancedHeight(t: Tree)
    requires t.Node? && SizeBalanced(t)
    ensures Pow2(Height(t).value) <= Size(t)
  {
    if t.right.Node? {
      BalancedHeight(t.right);
      if t.left.Node? {
        BalancedHeight(t.left);
      }
      HeightBound(t, Size(t.right));
    }
  }
}

=== FILE: deletion.dfy ===
/** `Tree#delete_node`: removal by splicing, or by copying the in-order
    successor's key into a node with two children. */
module Deletion {
  import opened Nodes

  /** No node strictly above the end of `p` holds `v`. */
  ghost predicate AboveAvoids(t: Tree, p: seq<bool>, v: int)
  {
    forall j :: 0 <= j < |p| ==> !(At(t, p[..j]).Node? && At(t, p[..j]).key == v)
  }

  /** Every subtree of `t` that neither holds `v` nor hangs below a node
      holding `v` is found unchanged, at the same path, in `r`. */
  ghost predicate KeepsOffPath(t: Tree, r: Tree, v: int)
  {
    forall p :: At(t, p).Node? && v !in Keys(At(t, p)) && AboveAvoids(t, p, v) ==> At(r, p) == At(t, p)
  }

  /** A path that avoids `v` above its end still does so once its first step
      is taken. */
  lemma {:induction false} AboveAvoidsChild(t: Tree, p: seq<bool>, v: int)
    requires t.Node? && |p| > 0 && AboveAvoids(t, p, v)
    ensures AboveAvoids(if p[0] then t.right else t.left, p[1..], v)
  {
    var c := if p[0] then t.right else t.left;
    forall j | 0 <= j < |p[1..]| ensures !(At(c, p[1..][..j]).Node? && At(c, p[1..][..j]).key == v) {
      assert p[..j + 1] == [p[0]] + p[1..][..j];
      assert At(t, p[..j + 1]) == At(c, p[1..][..j]);
    }
  }

  /** Rebuilding one child of a node that does not hold `v`, and keeping the
      key and the other child, keeps every subtree off the path to `v`. */
  lemma {:induction false} KeepsOffPathStep(dir: bool, t: Tree, r: Tree, v: int)
    requires t.Node? && r.Node? && r.key == t.key && t.key != v
    requires v !in Keys(t) ==> r == t
    requires (if dir then r.left else r.right) == (if dir then t.left else t.right)
    requires KeepsOffPath(if dir then t.right else t.left, if dir then r.right else r.left, v)
    ensures KeepsOffPath(t, r, v)
  {
    forall p | At(t, p).Node? && v !in Keys(At(t, p)) && AboveAvoids(t, p, v) ensures At(r, p) == At(t, p) {
      if |p| > 0 {
        var c := if p[0] then t.right else t.left;
        var c' := if p[0] then r.right else r.left;
        assert At(t, p) == At(c, p[1..]);
        assert At(r, p) == At(c', p[1..]);
        if p[0] == dir {
          AboveAvoidsChild(t, p, v);
        }
      }
    }
  }

  /** Nothing is claimed below a node holding `v`, so the node itself keeps it trivially. */
  lemma {:induction false} KeepsOffPathAtMatch(t: Tree, r: Tree, v: int)
    requires t.Node? && t.key == v
    ensures KeepsOffPath(t, r, v)
  {
    forall p | At(t, p).Node? ensures !(v !in Keys(At(t, p)) && AboveAvoids(t, p, v)) {
      if |p| == 0 {
        assert v in Keys(At(t, p));
      } else {
        assert At(t, p[..0]) == t;
      }
    }
  }

  /** `delete_node(value, node)`: returns the subtree with `v` removed. */
  function DeleteNode(v: int, t: Tree): (r: Tree)
    ensures t.Nil? ==> r.Nil?
    ensures v !in Keys(t) ==> r == t
    ensures Keys(r) <= Keys(t)
    ensures BST(t) ==> BST(r) && Keys(r) == Keys(t) - {v}
    ensures BST(t) ==> Size(r) == Size(t) - (if v in Keys(t) then 1 else 0)
    ensures t.Node? && t.key == v && t.left.Nil? ==> r == t.right
    ensures t.Node? && t.key == v && t.left.Node? && t.right.Nil? ==> r == t.left
    ensures t.Node? && t.key == v && t.left.Node? && t.right.Node? ==>
      && r.Node? && r.left == t.left && r.key == LowestChild(t.right).key
      && r.right == DeleteNode(r.key, t.right)
    ensures KeepsOffPath(t, r, v)
    decreases t
  {
    match t
    case Nil => Nil
    case Node(l, k, rt) =>
      if v < k then
        var l' := DeleteNode(v, l);
        KeepsOffPathStep(false, t, Node(l', k, rt), v);
        Node(l', k, rt)
      else if v > k then
        var rt' := DeleteNode(v, rt);
        KeepsOffPathStep(true, t, Node(l, k, rt'), v);
        Node(l, k, rt')
      else if l.Nil? then
        KeepsOffPathAtMatch(t, rt, v);
        rt
      else if rt.Nil? then
        KeepsOffPathAtMatch(t, l, v);
        l
      else
        var m := LowestChild(rt).key;
        KeepsOffPathAtMatch(t, Node(l, m, DeleteNode(m, rt)), v);
        Node(l, m, DeleteNode(m, rt))
  }

  /** Deletion reaches the node holding `v` along the search path and
      rebuilds only there: the subtree at that path becomes `delete_node`
      applied to the matching node itself (splice or successor copy), and
      every node above it on the path stays a node with the same key. */
  lemma {:induction false} DeleteAtMatch(v: int, t: Tree, p: seq<bool>)
    requires BST(t) && At(t, p).Node? && At(t, p).key == v && AboveAvoids(t, p, v)
    ensures At(DeleteNode(v, t), p) == DeleteNode(v, At(t, p))
    ensures forall j :: 0 <= j < |p| ==>
      && At(t, p[..j]).Node? && At(DeleteNode(v, t), p[..j]).Node?
      && At(DeleteNode(v, t), p[..j]).key == At(t, p[..j]).key
  {
    if |p| > 0 {
      assert t.Node?;
      assert At(t, p[..0]) == t;
      var c := if p[0] then t.right else t.left;
      assert At(t, p) == At(c, p[1..]);
      AtHoldsKey(c, p[1..]);
      AboveAvoidsChild(t, p, v);
      DeleteAtMatch(v, c, p[1..]);
      var r := DeleteNode(v, t);
      var c' := DeleteNode(v, c);
      assert r == if p[0] then Node(t.left, t.key, c') else Node(c', t.key, t.right);
      assert At(r, p) == At(c', p[1..]);
      forall j | 0 <= j < |p|
        ensures At(t, p[..j]).Node? && At(r, p[..j]).Node? && At(r, p[..j]).key == At(t, p[..j]).key
      {
        if j > 0 {
          assert p[..j] == [p[0]] + p[1..][..j - 1];
          assert At(t, p[..j]) == At(c, p[1..][..j - 1]);
          assert At(r, p[..j]) == At(c', p[1..][..j - 1]);
        }
      }
    }
  }

  /** The key copied up in the two-children case is the in-order successor:
      the smallest key of the tree greater than the deleted one. With it in
      the node, the left subtree stays below and the right subtree, once the
      successor is deleted from it, stays above. */
  lemma {:induction false} SuccessorIsNextKey(t: Tree)
    requires BST(t) && t.Node? && t.right.Node?
    ensures var m := LowestChild(t.right).key;
      && m in Keys(t) && t.key < m
      && (forall x :: x in Keys(t) && t.key < x ==> m <= x)
      && (forall x :: x in Keys(t.left) ==> x < m)
      && (forall y :: y in Keys(DeleteNode(m, t.right)) ==> m < y)
  {
  }
}

=== FILE: levels.dfy ===
/** Breadth-first order stated without a queue: the keys of a tree level by
    level, shallower levels first and left to right within a level. */
module Levels {
  import opened Nodes
  import opened Measure

  /** The keys at depth `d` of `t` (the root is at depth 0), left to right. */
  function LevelKeys(t: Tree, d: nat): seq<int>
  {
    match t
    case Nil => []
    case Node(l, k, r) => if d == 0 then [k] else LevelKeys(l, d - 1) + LevelKeys(r, d - 1)
  }

  /** The keys at depths `d` through `h`, one level after another. */
  function LevelsFrom(t: Tree, d: nat, h: nat): seq<int>
    decreases h - d
  {
    if d > h then [] else LevelKeys(t, d) + LevelsFrom(t, d + 1, h)
  }

  /** A key is listed at level `d` exactly when some downward path of length
      `d` ends at a node holding it. */
  lemma {:induction false} LevelKeysAtDepth(t: Tree, d: nat)
    ensures forall x :: x in LevelKeys(t, d) <==> exists p :: |p| == d && At(t, p).Node? && At(t, p).key == x
  {
    match t
    case Nil =>
      forall p | At(t, p).Node? ensures false {
      }
    case Node(l, k, r) =>
      if d == 0 {
        assert At(t, []) == t;
      } else {
        LevelKeysAtDepth(l, d - 1);
        LevelKeysAtDepth(r, d - 1);
        forall x | x in LevelKeys(t, d) ensures exists p :: |p| == d && At(t, p).Node? && At(t, p).key == x {
          var dir := x !in LevelKeys(l, d - 1);
          var c := if dir then r else l;
          var p' :| |p'| == d - 1 && At(c, p').Node? && At(c, p').key == x;
          var p := [dir] + p';
          assert p[0] == dir && p[1..] == p';
        }
        forall x, p | |p| == d && At(t, p).Node? && At(t, p).key == x ensures x in LevelKeys(t, d) {
          var c := if p[0] then r else l;
          assert At(t, p) == At(c, p[1..]);
        }
      }
  }

  /** No level lies deeper than the height. */
  lemma {:induction false} LevelKeysBeyondHeight(t: Tree, d: nat)
    requires t.Node? && d > Height(t).value
    ensures LevelKeys(t, d) == []
  {
    if t.left.Node? {
      LevelKeysBeyondHeight(t.left, d - 1);
    }
    if t.right.Node? {
      LevelKeysBeyondHeight(t.right, d - 1);
    }
  }
}

=== FILE: measure.dfy ===
/** `Tree#height` and `Tree#depth`. */
module Measure {
  import opened Options
  import opened Nodes
  import opened Search

  /** `height(node)`: edges on the longest downward path, `nil` for a `nil`
      node. An absent child counts as 0, which a present child never undercuts. */
  function Height(t: Tree): (h: Option<nat>)
    ensures h.None? <==> t.Nil?
  {
    if t.Nil? then None
    else if NumChildren(t) == 0 then Some(0)
    else
      var lh := if t.left.Nil? then 0 else Height(t.left).value;
      var rh := if t.right.Nil? then 0 else Height(t.right).value;
      Some((if lh > rh then lh else rh) + 1)
  }

  /** The height of a node is the length of its longest downward path: no
      path that stays on nodes is longer, and one of that length ends at a leaf. */
  lemma {:induction false} HeightIsLongestPath(t: Tree)
    requires t.Node?
    ensures forall p :: At(t, p).Node? ==> |p| <= Height(t).value
    ensures exists p :: |p| == Height(t).value && At(t, p).Node? && NumChildren(At(t, p)) == 0
  {
    var h := Height(t).value;
    forall p | At(t, p).Node? ensures |p| <= h {
      if |p| > 0 {
        var c := if p[0] then t.right else t.left;
        assert At(t, p) == At(c, p[1..]);
        HeightIsLongestPath(c);
      }
    }
    if NumChildren(t) == 0 {
      assert At(t, []) == t;
    } else {
      var dir := t.left.Nil? || (t.right.Node? && Height(t.right).value > Height(t.left).value);
      var c := if dir then t.right else t.left;
      HeightIsLongestPath(c);
      var p' :| |p'| == Height(c).value && At(c, p').Node? && NumChildren(At(c, p')) == 0;
      var p := [dir] + p';
      assert p[0] == dir && p[1..] == p';
      assert At(t, p) == At(c, p');
    }
  }

  /** 2^n. */
  function Pow2(n: nat): nat
  {
    if n == 0 then 1 else 2 * Pow2(n - 1)
  }

  /** A tree of height `h` has fewer than 2^(h+1) nodes. */
  lemma {:induction false} SizeBelowPow2(t: Tree)
    requires t.Node?
    ensures Size(t) < Pow2(Height(t).value + 1)
  {
    var h := Height(t).value;
    if t.left.Node? {
      SizeBelowPow2(t.left);
      PowMonotone(Height(t.left).value + 1, h);
    }
    if t.right.Node? {
      SizeBelowPow2(t.right);
      PowMonotone(Height(t.right).value + 1, h);
    }
  }

  /** If 2^height of each present subtree is at most n, 2^height of the node is at most 2n. */
  lemma {:induction false} HeightBound(t: Tree, n: nat)
    requires t.Node? && t.right.Node?
    requires Pow2(Height(t.right).value) <= n
    requires t.left.Node? ==> Pow2(Height(t.left).value) <= n
    ensures Pow2(Height(t).value) <= 2 * n
  {
    var rh := Height(t.right).value;
    var lh := if t.left.Nil? then 0 else Height(t.left).value;
    var m := if lh > rh then lh else rh;
    assert NumChildren(t) > 0;
    assert Height(t) == Some(m + 1);
    assert Pow2(m) <= n by {
      if lh > rh {
        assert t.left.Node?;
      }
    }
    Double(m, n);
  }

  lemma {:induction false} Double(m: nat, n: nat)
    requires Pow2(m) <= n
    ensures Pow2(m + 1) <= 2 * n
  {
  }

  lemma {:induction false} PowMonotone(a: nat, b: nat)
    requires a <= b
    ensures Pow2(a) <= Pow2(b)
  {
    if a < b {
      PowMonotone(a, b - 1);
    }
  }

  /** `depth(node, current_node)`: edges from `cur` down to the node whose key
      equals `node`'s, descending by comparison. `nil` when either is `nil`;
      when the key is not reachable the Ruby code adds `nil` to a count and
      raises, so reachability is required. */
  function Depth(node: Tree, cur: Tree): (d: Option<nat>)
    requires node.Node? && cur.Node? ==> Find(node.key, cur).Some?
    ensures d.None? <==> node.Nil? || cur.Nil?
    decreases cur
  {
    if cur.Nil? || node.Nil? then None
    else if Compare(node, cur) == 0 then Some(0)
    else if Compare(node, cur) < 0 then Some(1 + Depth(node, cur.left).value)
    else Some(1 + Depth(node, cur.right).value)
  }

  /** `depth` counts the edges of the path `find` descends: following that
      many steps from `t` reaches exactly the node `find` returns; in a search
      tree no other path reaches the key. */
  lemma {:induction false} DepthLocatesKey(node: Tree, t: Tree)
    requires node.Node? && t.Node? && Find(node.key, t).Some?
    ensures exists p :: |p| == Depth(node, t).value && At(t, p) == Find(node.key, t).value
    ensures BST(t) ==> forall p :: At(t, p).Node? && At(t, p).key == node.key ==> |p| == Depth(node, t).value
  {
    var d := Depth(node, t).value;
    if node.key == t.key {
      assert At(t, []) == t;
    } else {
      var dir := node.key > t.key;
      var c := if dir then t.right else t.left;
      DepthLocatesKey(node, c);
      var p' :| |p'| == Depth(node, c).value && At(c, p') == Find(node.key, c).value;
      var p := [dir] + p';
      assert p[0] == dir && p[1..] == p';
      assert At(t, p) == At(c, p');
    }
    if BST(t) {
      forall p | At(t, p).Node? && At(t, p).key == node.key ensures |p| == d {
        if |p| == 0 {
        } else {
          var c := if p[0] then t.right else t.left;
          assert At(t, p) == At(c, p[1..]);
          AtHoldsKey(c, p[1..]);
          if node.key == t.key {
            assert false;
          }
          DepthLocatesKey(node, c);
        }
      }
    }
  }
}

=== FILE: nodes.dfy ===
/** The `Node` class: a key with an optional left and right child, held here as
    an immutable value. `Nil` stands for Ruby's `nil` child. */
module Nodes {
  import opened Options

  datatype Tree = Nil | Node(left: Tree, key: int, right: Tree)

  /** The keys held in a subtree. */
  function Keys(t: Tree): set<int>
  {
    match t
    case Nil => {}
    case Node(l, k, r) => Keys(l) + {k} + Keys(r)
  }

  /** The keys held in a subtree, with multiplicity. */
  function KeyBag(t: Tree): multiset<int>
  {
    match t
    case Nil => multiset{}
    case Node(l, k, r) => KeyBag(l) + multiset{k} + KeyBag(r)
  }

  /** Number of nodes. */
  function Size(t: Tree): nat
  {
    match t
    case Nil => 0
    case Node(l, _, r) => Size(l) + 1 + Size(r)
  }

  /** The ordering invariant: left keys < key < right keys, at every node. */
  predicate BST(t: Tree)
  {
    match t
    case Nil => true
    case Node(l, k, r) =>
      && BST(l) && BST(r)
      && (forall x :: x in Keys(l) ==> x < k)
      && (forall x :: x in Keys(r) ==> k < x)
  }

  /** The subtree reached from `t` by following `path` downwards
      (`false` = left child, `true` = right child); `Nil` once it falls off. */
  function At(t: Tree, path: seq<bool>): Tree
  {
    if |path| == 0 || t.Nil? then t
    else At(if path[0] then t.right else t.left, path[1..])
  }

  /** A node reached by a path holds one of the keys of the tree it started from. */
  lemma {:induction false} AtHoldsKey(t: Tree, path: seq<bool>)
    requires At(t, path).Node?
    ensures At(t, path).key in Keys(t)
  {
    if |path| > 0 && t.Node? {
      AtHoldsKey(if path[0] then t.right else t.left, path[1..]);
    }
  }

  /** `Node#num_children`. */
  function NumChildren(t: Tree): (n: nat)
    requires t.Node?
    ensures n <= 2
    ensures n == 0 <==> t.left.Nil? && t.right.Nil?
    ensures n == 2 <==> t.left.Node? && t.right.Node?
  {
    (if t.left.Nil? then 0 else 1) + (if t.right.Nil? then 0 else 1)
  }

  /** `Node#<=>`: nodes compare by their data alone. */
  function Compare(a: Tree, b: Tree): (c: int)
    requires a.Node? && b.Node?
    ensures -1 <= c <= 1
    ensures c < 0 <==> a.key < b.key
    ensures c == 0 <==> a.key == b.key
  {
    if a.key < b.key then -1 else if a.key == b.key then 0 else 1
  }

  /** `m` is the node reached from `t` by left steps only. */
  ghost predicate OnLeftSpine(t: Tree, m: Tree)
  {
    exists p :: (forall i :: 0 <= i < |p| ==> !p[i]) && At(t, p) == m
  }

  lemma {:induction false} LeftStep(t: Tree, m: Tree)
    requires t.Node? && OnLeftSpine(t.left, m)
    ensures OnLeftSpine(t, m)
  {
    var p' :| (forall i :: 0 <= i < |p'| ==> !p'[i]) && At(t.left, p') == m;
    var p := [false] + p';
    assert p[0] == false && p[1..] == p';
    assert At(t, p) == At(t.left, p');
  }

  /** `m` is a subtree of `t`: some downward path from `t` reaches it. */
  ghost predicate IsSubtree(t: Tree, m: Tree)
  {
    exists p :: At(t, p) == m
  }

  /** A subtree of a child is a subtree of its parent. */
  lemma {:induction false} SubtreeStep(dir: bool, t: Tree, m: Tree)
    requires t.Node? && IsSubtree(if dir then t.right else t.left, m)
    ensures IsSubtree(t, m)
  {
    var c := if dir then t.right else t.left;
    var p' :| At(c, p') == m;
    var p := [dir] + p';
    assert p[0] == dir && p[1..] == p';
    assert At(t, p) == At(c, p');
  }

  /** `Node#lowest_child_recur`: follow left children until there is none. */
  function LowestChild(t: Tree): (m: Tree)
    requires t.Node?
    ensures m.Node? && m.left.Nil?
    ensures OnLeftSpine(t, m)
    ensures m.key in Keys(t)
    ensures BST(t) ==> forall x :: x in Keys(t) ==> m.key <= x
  {
    if t.left.Nil? then
      assert At(t, []) == t;
      t
    else
      var m := LowestChild(t.left);
      LeftStep(t, m);
      m
  }

  /** Every node of `t` is still at the same path in `r`, with the same key. */
  ghost predicate KeepsNodes(t: Tree, r: Tree)
  {
    forall p :: At(t, p).Node? ==> At(r, p).Node? && At(r, p).key == At(t, p).key
  }

  /** Keeping the nodes of both children, under the same key, keeps the nodes of the parent. */
  lemma {:induction false} KeepsNodesStep(l: Tree, k: int, rt: Tree, l': Tree, rt': Tree)
    requires KeepsNodes(l, l') && KeepsNodes(rt, rt')
    ensures KeepsNodes(Node(l, k, rt), Node(l', k, rt'))
  {
    var t, r := Node(l, k, rt), Node(l', k, rt');
    forall p | At(t, p).Node? ensures At(r, p).Node? && At(r, p).key == At(t, p).key {
      if |p| > 0 {
        assert At(t, p) == At(if p[0] then rt else l, p[1..]);
        assert At(r, p) == At(if p[0] then rt' else l', p[1..]);
      }
    }
  }

  /** `r` holds a leaf with key `v` at a path where `t` had no node. */
  ghost predicate AddsLeaf(t: Tree, r: Tree, v: int)
  {
    exists p :: At(t, p).Nil? && At(r, p) == Node(Nil, v, Nil)
  }

  /** A leaf added to one child is added to the parent, one step further down. */
  lemma {:induction false} AddsLeafStep(dir: bool, c: Tree, c': Tree, t: Tree, r: Tree, v: int)
    requires t.Node? && r.Node?
    requires c == (if dir then t.right else t.left) && c' == (if dir then r.right else r.left)
    requires c' != c ==> AddsLeaf(c, c', v)
    ensures c' != c ==> AddsLeaf(t, r, v)
  {
    if c' != c {
      var p' :| At(c, p').Nil? && At(c', p') == Node(Nil, v, Nil);
      var p := [dir] + p';
      assert p[0] == dir && p[1..] == p';
      assert At(t, p) == At(c, p');
      assert At(r, p) == At(c', p');
    }
  }
}

=== FILE: options.dfy ===
/** The `nil` that the Ruby methods return for "no node" or "no value". */
module Options {

  datatype Option<+T> = None | Some(value: T)

  /** The collected keys of a traversal that may have returned `nil`:
      an absent child contributes nothing, as the `unless ... nil?` guards arrange. */
  function Values(o: Option<seq<int>>): (r: seq<int>)
    ensures o.Some? ==> r == o.value
  {
    if o.None? then [] else o.value
  }
}

=== FILE: search.dfy ===
/** `Tree#find` and `Tree#insert`: descents directed by key comparison. */
module Search {
  import opened Options
  import opened Nodes

  /** `find(value, node)`: the node holding `v`, or `nil`. */
  function Find(v: int, t: Tree): (r: Option<Tree>)
    ensures r.Some? ==> r.value.Node? && r.value.key == v && v in Keys(t)
    ensures r.Some? ==> IsSubtree(t, r.value)
    ensures BST(t) ==> (r.Some? <==> v in Keys(t))
  {
    match t
    case Nil => None
    case Node(l, k, rt) =>
      if v == k then
        assert At(t, []) == t;
        Some(t)
      else
        var dir := v > k;
        var r := Find(v, if dir then rt else l);
        if r.Some? then
          SubtreeStep(dir, t, r.value);
          r
        else r
  }

  /** `insert(value, node)`: returns the subtree with `v` added as a new leaf,
      or unchanged when `v` is met on the way down. */
  function Insert(v: int, t: Tree): (r: Tree)
    ensures r.Node?
    ensures Keys(r) == Keys(t) + {v}
    ensures t.Nil? ==> r == Node(Nil, v, Nil)
    ensures BST(t) ==> BST(r)
    ensures BST(t) && v in Keys(t) ==> r == t
    ensures BST(t) ==> Size(r) == Size(t) + (if v in Keys(t) then 0 else 1)
    ensures KeepsNodes(t, r)
    ensures r == t || (AddsLeaf(t, r, v) && Size(r) == Size(t) + 1)
  {
    match t
    case Nil =>
      assert At(t, []).Nil? && At(Node(Nil, v, Nil), []) == Node(Nil, v, Nil);
      Node(Nil, v, Nil)
    case Node(l, k, rt) =>
      if v == k then t
      else if v < k then
        var l' := Insert(v, l);
        KeepsNodesStep(l, k, rt, l', rt);
        AddsLeafStep(false, l, l', t, Node(l', k, rt), v);
        Node(l', k, rt)
      else
        var rt' := Insert(v, rt);
        KeepsNodesStep(l, k, rt, l, rt');
        AddsLeafStep(true, rt, rt', t, Node(l, k, rt'), v);
        Node(l, k, rt')
  }
}

=== FILE: sorted.dfy ===
/** Strictly ascending integer sequences, and `arr.uniq.sort` as a function on them. */
module Sorted {

  predicate StrictlyAscending(s: seq<int>)
  {
    forall i, j :: 0 <= i < j < |s| ==> s[i] < s[j]
  }

  /** The set of elements of a sequence. */
  function Elements(s: seq<int>): set<int>
  {
    set x | x in s
  }

  lemma {:induction false} ElementsConcat(a: seq<int>, b: seq<int>)
    ensures Elements(a + b) == Elements(a) + Elements(b)
  {
  }

  lemma {:induction false} Associate<T>(a: seq<T>, b: seq<T>, c: seq<T>)
    ensures (a + b) + c == a + (b + c)
  {
  }

  /** Putting a smaller element in front keeps a sequence ascending. */
  lemma {:induction false} Prepend(h: int, t: seq<int>)
    requires StrictlyAscending(t)
    requires forall y :: y in Elements(t) ==> h < y
    ensures StrictlyAscending([h] + t)
  {
    forall i, j | 0 <= i < j < |[h] + t| ensures ([h] + t)[i] < ([h] + t)[j] {
      if i == 0 {
        assert t[j - 1] in Elements(t);
      }
    }
  }

  /** Joining two ascending runs around a separating key keeps them ascending. */
  lemma {:induction false} Join(a: seq<int>, k: int, b: seq<int>)
    requires StrictlyAscending(a) && StrictlyAscending(b)
    requires forall x :: x in Elements(a) ==> x < k
    requires forall y :: y in Elements(b) ==> k < y
    ensures StrictlyAscending(a + [k] + b)
  {
    var s := a + [k] + b;
    forall i, j | 0 <= i < j < |s| ensures s[i] < s[j] {
      if i < |a| {
        assert s[i] == a[i] && a[i] in Elements(a);
      }
      if |a| < j {
        assert s[j] == b[j - |a| - 1] && b[j - |a| - 1] in Elements(b);
      }
    }
  }

  /** Inserts `x` into an ascending sequence, dropping it if it is already there. */
  function InsertUnique(s: seq<int>, x: int): (r: seq<int>)
    requires StrictlyAscending(s)
    ensures StrictlyAscending(r)
    ensures Elements(r) == Elements(s) + {x}
    ensures |r| == if x in s then |s| else |s| + 1
  {
    if |s| == 0 then [x]
    else if x < s[0] then
      Prepend(x, s);
      [x] + s
    else if x == s[0] then s
    else
      assert s == [s[0]] + s[1..];
      var tail := InsertUnique(s[1..], x);
      ElementsConcat([s[0]], s[1..]);
      ElementsConcat([s[0]], tail);
      Prepend(s[0], tail);
      [s[0]] + tail
  }

  /** `arr.uniq.sort`: the distinct elements of `arr` in ascending order. */
  function SortedUnique(arr: seq<int>): (r: seq<int>)
    ensures StrictlyAscending(r)
    ensures Elements(r) == Elements(arr)
    ensures |r| <= |arr|
  {
    if |arr| == 0 then []
    else
      var init := arr[..|arr| - 1];
      assert arr == init + [arr[|arr| - 1]];
      ElementsConcat(init, [arr[|arr| - 1]]);
      InsertUnique(SortedUnique(init), arr[|arr| - 1])
  }

  /** An ascending sequence is determined by its elements, so any correct
      `uniq.sort` returns what `SortedUnique` returns. */
  lemma {:induction false} AscendingDeterminedByElements(s: seq<int>, t: seq<int>)
    requires StrictlyAscending(s) && StrictlyAscending(t)
    requires Elements(s) == Elements(t)
    ensures s == t
  {
    if |s| == 0 && |t| == 0 {
    } else {
      assert |s| > 0 && |t| > 0 by {
        if |s| > 0 { assert s[0] in Elements(s); }
        if |t| > 0 { assert t[0] in Elements(t); }
      }
      assert s[0] == t[0] by {
        assert s[0] in Elements(t);
        assert t[0] in Elements(s);
        var i :| 0 <= i < |t| && t[i] == s[0];
        var j :| 0 <= j < |s| && s[j] == t[0];
      }
      assert s == [s[0]] + s[1..];
      assert t == [t[0]] + t[1..];
      assert Elements(s[1..]) == Elements(t[1..]) by {
        forall x | x in Elements(s[1..]) ensures x in Elements(t[1..]) {
          var i :| 1 <= i < |s| && s[i] == x;
          assert x in Elements(t);
          assert x != t[0];
        }
        forall x | x in Elements(t[1..]) ensures x in Elements(s[1..]) {
          var i :| 1 <= i < |t| && t[i] == x;
          assert x in Elements(s);
          assert x != s[0];
        }
      }
      AscendingDeterminedByElements(s[1..], t[1..]);
    }
  }
}

=== FILE: traversal.dfy ===
/** The four traversals of `Tree`, in their collected-sequence form. */
module Traversal {
  import opened Options
  import opened Sorted
  import opened Nodes
  import opened Measure
  import opened Levels

  /** `inorder`: left subtree, node, right subtree; `nil` on an empty tree. */
  function Inorder(t: Tree): (r: Option<seq<int>>)
    ensures r.None? <==> t.Nil?
    ensures r.Some? ==> multiset(r.value) == KeyBag(t)
  {
    match t
    case Nil => None
    case Node(l, k, rt) => Some(Values(Inorder(l)) + [k] + Values(Inorder(rt)))
  }

  /** `preorder`: node, left subtree, right subtree; `nil` on an empty tree. */
  function Preorder(t: Tree): (r: Option<seq<int>>)
    ensures r.None? <==> t.Nil?
    ensures r.Some? ==> multiset(r.value) == KeyBag(t)
  {
    match t
    case Nil => None
    case Node(l, k, rt) => Some([k] + Values(Preorder(l)) + Values(Preorder(rt)))
  }

  /** `postorder`: left subtree, right subtree, node; `nil` on an empty tree. */
  function Postorder(t: Tree): (r: Option<seq<int>>)
    ensures r.None? <==> t.Nil?
    ensures r.Some? ==> multiset(r.value) == KeyBag(t)
  {
    match t
    case Nil => None
    case Node(l, k, rt) => Some(Values(Postorder(l)) + Values(Postorder(rt)) + [k])
  }

  /** The in-order keys of any tree are exactly its keys. */
  lemma {:induction false} InorderKeys(t: Tree)
    ensures Elements(Values(Inorder(t))) == Keys(t)
  {
    match t
    case Nil =>
    case Node(l, k, r) =>
      InorderKeys(l);
      InorderKeys(r);
      ElementsConcat(Values(Inorder(l)), [k]);
      ElementsConcat(Values(Inorder(l)) + [k], Values(Inorder(r)));
  }

  /** The in-order keys of a search tree are strictly ascending. */
  lemma {:induction false} InorderAscending(t: Tree)
    requires BST(t)
    ensures StrictlyAscending(Values(Inorder(t)))
  {
    match t
    case Nil =>
    case Node(l, k, r) =>
      InorderAscending(l);
      InorderAscending(r);
      InorderKeys(l);
      InorderKeys(r);
      Join(Values(Inorder(l)), k, Values(Inorder(r)));
  }

  /** Every node queued for the breadth-first walk is a real node. */
  predicate AllNodes(q: seq<Tree>)
  {
    forall i :: 0 <= i < |q| ==> q[i].Node?
  }

  /** Nodes still to be visited from a queue of subtrees. */
  function QueueSize(q: seq<Tree>): nat
  {
    if |q| == 0 then 0 else Size(q[0]) + QueueSize(q[1..])
  }

  /** Keys still to be visited from a queue of subtrees. */
  function QueueBag(q: seq<Tree>): multiset<int>
  {
    if |q| == 0 then multiset{} else KeyBag(q[0]) + QueueBag(q[1..])
  }

  lemma {:induction false} QueueConcat(a: seq<Tree>, b: seq<Tree>)
    ensures QueueSize(a + b) == QueueSize(a) + QueueSize(b)
    ensures QueueBag(a + b) == QueueBag(a) + QueueBag(b)
  {
    if |a| != 0 {
      assert (a + b)[1..] == a[1..] + b;
      QueueConcat(a[1..], b);
    } else {
      assert a + b == b;
    }
  }

  lemma {:induction false} AllNodesConcat(a: seq<Tree>, b: seq<Tree>)
    requires AllNodes(a) && AllNodes(b)
    ensures AllNodes(a + b)
  {
    forall i | 0 <= i < |a + b| ensures (a + b)[i].Node? {
      if i >= |a| {
        assert (a + b)[i] == b[i - |a|];
      }
    }
  }

  /** The children a visited node adds to the back of the queue, left first,
      skipping absent ones. */
  function Children(n: Tree): (c: seq<Tree>)
    requires n.Node?
    ensures AllNodes(c)
    ensures |c| == NumChildren(n)
    ensures n.left.Node? ==> c[0] == n.left
    ensures n.right.Node? ==> c[|c| - 1] == n.right
  {
    if n.left.Nil? && n.right.Nil? then []
    else if n.right.Nil? then [n.left]
    else if n.left.Nil? then [n.right]
    else [n.left, n.right]
  }

  /** The enqueued children hold every node and every key of the visited
      node's subtree except the node itself. */
  lemma {:induction false} ChildrenKeys(n: Tree)
    requires n.Node?
    ensures QueueSize(Children(n)) + 1 == Size(n)
    ensures QueueBag(Children(n)) + multiset{n.key} == KeyBag(n)
  {
    if n.left.Node? && n.right.Node? {
      assert Children(n) == [n.left, n.right];
      TwoChildren(n);
    } else if n.left.Node? {
      assert Children(n) == [n.left];
      OneChild(n, n.left);
    } else if n.right.Node? {
      assert Children(n) == [n.right];
      OneChild(n, n.right);
    } else {
      assert Children(n) == [];
      NoChildren(n);
    }
  }

  /** The size and keys of the children list, for each shape of node. */
  lemma {:induction false} NoChildren(n: Tree)
    requires n.Node? && n.left.Nil? && n.right.Nil?
    ensures QueueSize([]) + 1 == Size(n)
    ensures QueueBag([]) + multiset{n.key} == KeyBag(n)
  {
  }

  lemma {:induction false} OneChild(n: Tree, a: Tree)
    requires n.Node? && ((n.left == a && n.right.Nil?) || (n.left.Nil? && n.right == a))
    ensures QueueSize([a]) + 1 == Size(n)
    ensures QueueBag([a]) + multiset{n.key} == KeyBag(n)
  {
    assert [a][1..] == [];
  }

  lemma {:induction false} TwoChildren(n: Tree)
    requires n.Node? && n.left.Node? && n.right.Node?
    ensures QueueSize([n.left, n.right]) + 1 == Size(n)
    ensures QueueBag([n.left, n.right]) + multiset{n.key} == KeyBag(n)
  {
    assert [n.left, n.right][1..] == [n.right];
    assert [n.right][1..] == [];
    assert QueueSize([n.right]) == Size(n.right);
    assert QueueBag([n.right]) == KeyBag(n.right);
  }

  /** Taking the front node off the queue and enqueuing its children leaves
      one node fewer, and every key still to come. */
  lemma {:induction false} Dequeue(q: seq<Tree>)
    requires |q| > 0 && AllNodes(q)
    ensures AllNodes(q[1..] + Children(q[0]))
    ensures QueueSize(q[1..] + Children(q[0])) + 1 == QueueSize(q)
    ensures QueueBag(q[1..] + Children(q[0])) + multiset{q[0].key} == QueueBag(q)
  {
    var c := Children(q[0]);
    ChildrenKeys(q[0]);
    QueueConcat(q[1..], c);
    var next := q[1..] + c;
    forall i | 0 <= i < |next| ensures next[i].Node? {
      if i < |q| - 1 {
        assert next[i] == q[i + 1];
      } else {
        assert next[i] == c[i - |q| + 1];
      }
    }
  }

  /** `level_order_rec(queue)`: visit the front of the queue, enqueue its
      children, recurse on the rest. */
  function LevelOrderQueue(q: seq<Tree>): (r: seq<int>)
    requires AllNodes(q)
    ensures multiset(r) == QueueBag(q)
    decreases QueueSize(q)
  {
    if |q| == 0 then []
    else
      Dequeue(q);
      [q[0].key] + LevelOrderQueue(q[1..] + Children(q[0]))
  }

  /** The keys of the nodes of a queue, in queue order. */
  function Roots(q: seq<Tree>): (r: seq<int>)
    requires AllNodes(q)
    ensures |r| == |q|
  {
    if |q| == 0 then [] else [q[0].key] + Roots(q[1..])
  }

  lemma {:induction false} RootsConcat(a: seq<Tree>, b: seq<Tree>)
    requires AllNodes(a) && AllNodes(b)
    ensures AllNodes(a + b)
    ensures Roots(a + b) == Roots(a) + Roots(b)
  {
    AllNodesConcat(a, b);
    if |a| == 0 {
      assert a + b == b;
    } else {
      assert (a + b)[1..] == a[1..] + b;
      RootsConcat(a[1..], b);
      Associate([a[0].key], Roots(a[1..]), Roots(b));
    }
  }

  /** The children of every node of a queue, in queue order. */
  function NextLevel(q: seq<Tree>): (r: seq<Tree>)
    requires AllNodes(q)
    ensures AllNodes(r)
  {
    if |q| == 0 then []
    else
      AllNodesConcat(Children(q[0]), NextLevel(q[1..]));
      Children(q[0]) + NextLevel(q[1..])
  }

  /** Each node of a level has its children on the next, so the next level
      holds as many nodes fewer as the level has. */
  lemma {:induction false} NextLevelSize(q: seq<Tree>)
    requires AllNodes(q)
    ensures QueueSize(NextLevel(q)) + |q| == QueueSize(q)
  {
    if |q| > 0 {
      NextLevelSize(q[1..]);
      ChildrenKeys(q[0]);
      QueueConcat(Children(q[0]), NextLevel(q[1..]));
    }
  }

  lemma {:induction false} NextLevelConcat(a: seq<Tree>, b: seq<Tree>)
    requires AllNodes(a) && AllNodes(b)
    ensures AllNodes(a + b)
    ensures NextLevel(a + b) == NextLevel(a) + NextLevel(b)
  {
    AllNodesConcat(a, b);
    if |a| == 0 {
      assert a + b == b;
    } else {
      assert (a + b)[1..] == a[1..] + b;
      NextLevelConcat(a[1..], b);
      Associate(Children(a[0]), NextLevel(a[1..]), NextLevel(b));
    }
  }

  /** Breadth-first order one whole level at a time: the keys of the queue,
      then the walk of the level below it. */
  function LevelWalk(q: seq<Tree>): seq<int>
    requires AllNodes(q)
    decreases QueueSize(q)
  {
    if |q| == 0 then []
    else
      NextLevelSize(q);
      Roots(q) + LevelWalk(NextLevel(q))
  }

  /** The subtrees rooted at depth `d`, left to right. */
  function Level(t: Tree, d: nat): (q: seq<Tree>)
    ensures AllNodes(q)
  {
    match t
    case Nil => []
    case Node(l, _, r) =>
      if d == 0 then [t]
      else
        AllNodesConcat(Level(l, d - 1), Level(r, d - 1));
        Level(l, d - 1) + Level(r, d - 1)
  }

  /** The keys of the nodes at depth `d` are the keys at depth `d`. */
  lemma {:induction false} LevelRoots(t: Tree, d: nat)
    ensures Roots(Level(t, d)) == LevelKeys(t, d)
  {
    match t
    case Nil =>
    case Node(l, _, r) =>
      if d == 0 {
        assert [t][1..] == [];
      } else {
        LevelRoots(l, d - 1);
        LevelRoots(r, d - 1);
        RootsConcat(Level(l, d - 1), Level(r, d - 1));
      }
  }

  lemma {:induction false} NextOfOne(n: Tree)
    requires n.Node?
    ensures NextLevel([n]) == Children(n)
  {
    assert [n][1..] == [];
    assert NextLevel([n]) == Children(n) + NextLevel([]);
  }

  /** The nodes at depth 1 are the root's children, left first. */
  lemma {:induction false} LevelOne(t: Tree)
    requires t.Node?
    ensures Level(t, 1) == Children(t)
  {
    assert Level(t, 1) == Level(t.left, 0) + Level(t.right, 0);
    if t.left.Nil? {
      assert Level(t, 1) == Level(t.right, 0);
    } else if t.right.Nil? {
      assert Level(t, 1) == Level(t.left, 0);
    }
  }

  /** The children of the nodes at depth `d` are the nodes at depth `d + 1`,
      in the same left-to-right order. */
  lemma {:induction false} LevelNext(t: Tree, d: nat)
    ensures NextLevel(Level(t, d)) == Level(t, d + 1)
  {
    match t
    case Nil =>
    case Node(l, _, r) =>
      if d == 0 {
        NextOfOne(t);
        LevelOne(t);
      } else {
        var lower, upper := Level(l, d - 1), Level(r, d - 1);
        assert Level(t, d) == lower + upper;
        NextLevelConcat(lower, upper);
        LevelNext(l, d - 1);
        LevelNext(r, d - 1);
        assert Level(t, d + 1) == Level(l, d) + Level(r, d);
      }
  }

  /** The queue walk lists the nodes already queued, then the level walk of
      everything queued behind them together with their children. */
  lemma {:induction false} QueueWalk(a: seq<Tree>, b: seq<Tree>)
    requires AllNodes(a) && AllNodes(b)
    ensures AllNodes(a + b) && AllNodes(b + NextLevel(a))
    ensures LevelOrderQueue(a + b) == Roots(a) + LevelWalk(b + NextLevel(a))
    decreases QueueSize(a + b), if |a| == 0 then 1 else 0
  {
    AllNodesConcat(a, b);
    AllNodesConcat(b, NextLevel(a));
    if |a| == 0 {
      assert a + b == b;
      assert b + NextLevel(a) == b;
      if |b| > 0 {
        QueueWalk(b, []);
        assert b + [] == b;
        assert [] + NextLevel(b) == NextLevel(b);
      }
    } else {
      var b' := b + Children(a[0]);
      VisitFront(a, b);
      QueueWalk(a[1..], b');
      Associate(b, Children(a[0]), NextLevel(a[1..]));
      Associate([a[0].key], Roots(a[1..]), LevelWalk(b + NextLevel(a)));
    }
  }

  /** Visiting the front node of `a + b` leaves the rest of `a`, then `b`,
      then the visited node's children. */
  lemma {:induction false} VisitFront(a: seq<Tree>, b: seq<Tree>)
    requires |a| > 0 && AllNodes(a) && AllNodes(b)
    ensures AllNodes(a + b) && AllNodes(a[1..]) && AllNodes(b + Children(a[0]))
    ensures QueueSize(a[1..] + (b + Children(a[0]))) < QueueSize(a + b)
    ensures LevelOrderQueue(a + b) == [a[0].key] + LevelOrderQueue(a[1..] + (b + Children(a[0])))
  {
    AllNodesConcat(a, b);
    AllNodesConcat(b, Children(a[0]));
    assert a[1..] + b == (a + b)[1..];
    AllNodesConcat(a[1..], b);
    assert [a[0]] + (a[1..] + b) == a + b;
    Visit(a[0], a[1..] + b);
    Associate(a[1..], b, Children(a[0]));
  }

  /** Walking the queue `[t]` visits the levels of `t` in order. */
  lemma {:induction false} WalkLevels(t: Tree, d: nat, h: nat)
    requires t.Node? && h == Height(t).value
    ensures LevelWalk(Level(t, d)) == LevelsFrom(t, d, h)
    decreases h - d
  {
    LevelRoots(t, d);
    if d > h {
      LevelKeysBeyondHeight(t, d);
    } else {
      LevelNext(t, d);
      WalkLevels(t, d + 1, h);
    }
  }

  /** The queue walk from `[t]` is breadth-first: level 0, then level 1, and
      so on to the height, each level left to right. */
  lemma {:induction false} BreadthFirst(t: Tree)
    requires t.Node?
    ensures LevelOrderQueue([t]) == LevelsFrom(t, 0, Height(t).value)
  {
    QueueWalk([], [t]);
    assert [] + [t] == [t];
    assert [t] + NextLevel([]) == [t];
    assert Level(t, 0) == [t];
    WalkLevels(t, 0, Height(t).value);
  }

  /** `level_order_rec` with its default queue `[@root]`; a `nil` root would be
      dereferenced, so the tree must be non-empty. It lists the keys by
      depth, left to right within a depth. */
  function LevelOrderRec(t: Tree): (r: seq<int>)
    requires t.Node?
    ensures multiset(r) == KeyBag(t)
    ensures r == LevelsFrom(t, 0, Height(t).value)
  {
    assert [t][1..] == [];
    assert QueueBag([t]) == KeyBag(t) + QueueBag([]);
    BreadthFirst(t);
    LevelOrderQueue([t])
  }

  /** One step of the breadth-first walk, seen from the queue's front node. */
  lemma {:induction false} Visit(current: Tree, queue: seq<Tree>)
    requires current.Node? && AllNodes(queue)
    ensures AllNodes(queue + Children(current))
    ensures QueueSize(queue + Children(current)) + 1 == Size(current) + QueueSize(queue)
    ensures LevelOrderQueue([current] + queue)
         == [current.key] + LevelOrderQueue(queue + Children(current))
  {
    var q := [current] + queue;
    assert q[0] == current && q[1..] == queue;
    Dequeue(q);
  }

  /** One turn of the `level_order` loop keeps the keys collected so far,
      followed by what the queue still yields, equal to `expected`. */
  lemma {:induction false} Advance(values: seq<int>, current: Tree, queue: seq<Tree>, expected: seq<int>)
    requires current.Node? && AllNodes(queue)
    requires values + LevelOrderQueue([current] + queue) == expected
    ensures AllNodes(queue + Children(current))
    ensures QueueSize(queue + Children(current)) + 1 == Size(current) + QueueSize(queue)
    ensures (values + [current.key]) + LevelOrderQueue(queue + Children(current)) == expected
  {
    Visit(current, queue);
    Associate(values, [current.key], LevelOrderQueue(queue + Children(current)));
  }

  /** Taking the next node to visit off a non-empty queue. */
  lemma {:induction false} Refill(next: seq<Tree>)
    requires |next| > 0 && AllNodes(next)
    ensures next[0].Node? && AllNodes(next[1..])
    ensures Size(next[0]) + QueueSize(next[1..]) == QueueSize(next)
    ensures LevelOrderQueue([next[0]] + next[1..]) == LevelOrderQueue(next)
  {
    assert [next[0]] + next[1..] == next;
  }

  /** `level_order`: the iterative breadth-first walk. It returns `[]` on an
      empty tree and otherwise returns the same keys, in the same order, as
      `level_order_rec` (which, unlike this loop, needs a stack frame per node). */
  method LevelOrder(t: Tree) returns (values: seq<int>)
    ensures t.Nil? ==> values == []
    ensures t.Node? ==> values == LevelOrderRec(t)
    ensures t.Node? ==> values == LevelsFrom(t, 0, Height(t).value)
    ensures multiset(values) == KeyBag(t)
  {
    ghost var expected := if t.Nil? then [] else LevelOrderRec(t);
    var queue: seq<Tree> := [];
    values := [];
    var current := t;
    assert [t] + queue == [t];
    while current.Node?
      invariant AllNodes(queue)
      invariant current.Nil? ==> values == expected
      invariant current.Node? ==> values + LevelOrderQueue([current] + queue) == expected
      decreases Size(current) + QueueSize(queue)
    {
      Advance(values, current, queue, expected);
      var next := queue + Children(current);
      values := values + [current.key];
      if |next| == 0 {
        current := Nil;
        queue := [];
      } else {
        Refill(next);
        current := next[0];
        queue := next[1..];
      }
    }
  }
}

=== FILE: tree.dfy ===
/** The `Tree` object: a root that `initialize`, `insert` and `delete` set. */
module BinarySearchTree {
  import opened Options
  import opened Sorted
  import opened Nodes
  import opened Traversal
  import opened Search
  import opened Deletion
  import opened Build

  datatype SearchTree = SearchTree(root: Tree)

  /** `Tree.new(arr)`: builds from `arr.uniq.sort`. */
  function New(arr: seq<int>): (st: SearchTree)
    ensures st.root.Nil? <==> |arr| == 0
    ensures BST(st.root) && SizeBalanced(st.root)
    ensures Keys(st.root) == Elements(arr)
    ensures StrictlyAscending(Values(Inorder(st.root)))
    ensures Elements(Values(Inorder(st.root))) == Elements(arr)
  {
    var sorted := SortedUnique(arr);
    var root := BuildTree(sorted);
    InorderAscending(root);
    InorderKeys(root);
    assert |arr| > 0 ==> arr[0] in Elements(arr);
    SearchTree(root)
  }

  /** The in-order keys of `Tree.new(arr)` are `arr.uniq.sort`, whichever
      ascending sequence of the distinct elements that is taken to be. */
  lemma {:induction false} NewInorderIsUniqSort(arr: seq<int>, uniqSort: seq<int>)
    requires StrictlyAscending(uniqSort) && Elements(uniqSort) == Elements(arr)
    ensures Values(Inorder(New(arr).root)) == uniqSort
  {
    AscendingDeterminedByElements(Values(Inorder(New(arr).root)), uniqSort);
  }

  /** `insert(value)` with its default node `@root`: returns the inserted-into
      subtree. The root is updated only through mutation of an existing node,
      so inserting into an empty tree returns the new node but leaves the tree empty. */
  function TreeInsert(st: SearchTree, v: int): (r: (SearchTree, Tree))
    ensures st.root.Nil? ==> r.0 == st && r.1 == Node(Nil, v, Nil)
    ensures r.1 == Insert(v, st.root)
    ensures st.root.Node? ==> r.0.root == r.1 && Keys(r.1) == Keys(st.root) + {v}
    ensures BST(st.root) ==> BST(r.0.root)
    ensures BST(st.root) && v in Keys(st.root) ==> r.0 == st && r.1 == st.root
  {
    var n := Insert(v, st.root);
    (if st.root.Nil? then st else SearchTree(n), n)
  }

  /** `delete(value)`: the root becomes whatever `delete_node` returns, which
      also covers deleting the key held at the root. */
  function Delete(st: SearchTree, v: int): (r: SearchTree)
    ensures r.root == DeleteNode(v, st.root)
    ensures v !in Keys(st.root) ==> r == st
    ensures BST(st.root) ==> BST(r.root) && Keys(r.root) == Keys(st.root) - {v}
    ensures st.root.Node? && st.root.left.Nil? && st.root.key == v ==> r.root == st.root.right
  {
    SearchTree(DeleteNode(v, st.root))
  }
}
